=== FILE: README.md ===
# Item service, session manager and todo list — a Dafny model

This project models three small Go components and proves properties of them.

- **Item HTTP service** (`api/api.go`). One SQLite table `items(id, name, value)` sits behind five handlers. `GET /api/items` lists the rows and `POST /api/items` creates one. `GET`, `PUT` and `DELETE` on `/api/item?id=…` fetch, update and delete one row. Replies are JSON. An error is `{"error": message}`. A failed encoding falls back to a plain-text 500.
- **AuthManager** (`auth.go`). It holds registered users and active sessions, and has four operations: `Register`, `Login`, `Logout` and `IsLoggedIn`.
- **Todo list** (`todo.go`). An interactive menu loop adds tasks, lists them and marks them complete.

Everything is modelled with immutable values and pure transition functions.

- **Table.** The table is `ItemStore.Store`: a map from id to `(name, value)`, plus the AUTOINCREMENT counter. The counter is the largest id ever handed out; SQLite keeps it in `sqlite_sequence`. A new row gets counter + 1, so ids are never reused.
- **Handlers.** Each handler maps a store and its request inputs to the store afterwards and a reply (status code, payload). Payloads form a closed datatype: an item, a list of items, `null` (Go's nil slice), `{"result": …}`, or `{"error": …}`.
- **Oracles.** The handler source does not show when the database driver or the JSON encoder fails. Both come in through an `Env`: the stage at which a database call fails, with the driver's message, and whether encoding fails.
- **Id parsing.** The `id` query parameter is read as Go's `strconv.Atoi` reads it: an optional sign, one or more digits, and a value that fits a 64-bit `int`. This is module `Decimal`. The same reading decides which row a raw id string matches in SQL. The todo list prints numbers with `Decimal.IntToDecimal`, which is what `%d` prints. The project proves that Atoi reads back any printed 64-bit integer.

Modules: `Wrappers` (Option, Outcome), `Decimal`, `ItemStore` (the table), `ItemApi` (handlers, envelope, router), `ItemApiProperties` (facts across requests), `Auth`, `Todo`.

### Behaviour worth knowing

- The routes are `/api/items` and `/api/item`.
- `CreateItem` and `UpdateItem` accept any body that decodes. A missing `name` or `value` is stored as `""` and answered with 201 or 200.
- Listing an empty table answers `null`, because the handler's slice of items is still nil.
- `UpdateItem` replies with the body it decoded. The reply's `id` is whatever the client sent, or 0 if it sent none.
- `api/api.go:126` does not compile as written. The model takes the evident intent: an empty `id`, or one Atoi rejects, yields 400 "Invalid item ID" before the body is read. Atoi rejects the empty string, so one check covers both.
- Update and delete of an id with no row succeed silently.

## Model

| member | source | states |
|---|---|---|
| Decimal.Atoi | api/api.go:126 | Atoi accepts exactly the texts of an optional sign and one or more digits whose magnitude is at most 2^63 - 1, or 2^63 after a minus; the value is that magnitude, negated after a minus, and fits a 64-bit `int` |
| Decimal.ParseInteger | api/api.go:126 | A text reads as an integer exactly when it is a non-empty optional `+` or `-` followed by digits only; its value is the digits' value, negated after a minus |
| Decimal.NatToDecimal | todo.go:53 | `%d` of a natural number is a non-empty digit string whose value is that number; it starts with `0` only when it is `0` itself |
| Decimal.IntToDecimal | todo.go:53 | `%d` prints a minus sign exactly for negative numbers, never a `+`, no leading zero, and `0` for zero; the text reads back as the same integer |
| Decimal.AtoiOfDecimal | api/api.go:119-126 | Every 64-bit id the service prints is accepted by Atoi as the same id |
| Decimal.DecimalOfParse | todo.go:53 | A text with no `+`, no leading zero and not `-0` that reads as an integer is exactly what `%d` prints for that integer |
| Decimal.DecimalOfAtoi | api/api.go:126 | Every id text Atoi accepts with no `+`, no leading zero and not `-0` is what `%d` prints for the id Atoi returns |
| Decimal.NatToDecimalOfDigits | todo.go:53 | A digit string without a leading zero is what `%d` prints for its value |
| ItemStore.Initialize | api/api.go:27-44 | Open or schema failure is reported with the driver's message; otherwise an existing table is kept, and a missing one is created as the empty table: no rows, counter 0, so the first id handed out is 1 |
| ItemStore.InitializeIdempotent | api/api.go:35-40 | `CREATE TABLE IF NOT EXISTS` on an initialized table leaves it unchanged |
| ItemStore.Lookup | api/api.go:77 | A point lookup finds a row exactly when the key is present, and returns that row's columns under that id |
| ItemStore.Insert | api/api.go:37 | An insert adds exactly one row under counter + 1 with the given name and value; the counter moves to the new id; other rows are unchanged; a valid table stays valid and the new id was unused |
| ItemStore.Update | api/api.go:139-146 | An update overwrites name and value of the matching row only; a missing row leaves the table unchanged; the set of ids and the counter never change |
| ItemStore.Delete | api/api.go:163-170 | A delete removes only the matching id; remaining rows and the counter are unchanged; a missing id is silent |
| ItemStore.SortedIds | api/api.go:48 | The scan order lists every id exactly once, in strictly ascending order |
| ItemStore.Scan | api/api.go:48-63 | `SELECT … FROM items` yields one item per row, each equal to its stored row, every row present, ids strictly ascending |
| ItemApi.Decode | api/api.go:92-97 | An undecodable body is rejected; `null` and missing fields give zero values; an id outside the `int` range is rejected; the decoded fields are the body's |
| ItemApi.SqlKey | api/api.go:77 | The raw id text matches an integer key exactly when it reads as an integer within the 64-bit range, and then matches that integer, so `+5`, `007` and `-0` match their keys; the text `%d` prints for any 64-bit key matches that key |
| ItemApi.FailureAt | api/api.go:101-116 | A database call fails exactly when the driver fails at that stage, and returns the driver's message |
| ItemApi.RespondWithError | api/api.go:180-182 | An error reply carries the given code and the envelope `{"error": message}` |
| ItemApi.RespondWithJSON | api/api.go:184-194 | A reply goes out as JSON under its own status, except that a failed encoding gives 500 and the plain text "Error encoding response" |
| ItemApi.GetItems | api/api.go:47-66 | Listing never changes the table; a query failure, or a scan failure with rows present, gives 500 with the driver's message; without a query failure an empty table gives 200 `null`; with neither failure a non-empty table gives 200 with every row exactly once and nothing else, in strictly ascending id order; any non-200 is a query or scan failure's 500; faults at other stages play no part |
| ItemApi.GetItem | api/api.go:69-88 | An empty id gives 400 "Missing item ID" whatever the table holds; a query failure gives 500 with the driver's message; an id matching no row gives 404 "Item not found"; a matching id gives 200 with exactly the stored item unless the scan fails, which gives that 500; every 500 is a query or scan failure; the table is never changed |
| ItemApi.CreateItem | api/api.go:91-121 | An undecodable body gives 400 "Invalid request payload" with no row added; a prepare or execute failure gives 500 with the driver's message and no row; with ids used up the insert gives 500 "database or disk is full" and no row; a `LastInsertId` failure gives 500 with the driver's message and keeps the inserted row; a 201 adds exactly the one row under the next id with the body's name and value and replies with that id; with none of those failures a decodable body always gets 201 |
| ItemApi.UpdateItem | api/api.go:124-153 | A bad id gives 400 "Invalid item ID" before the body is read; a bad body gives 400 "Invalid request payload"; a prepare or execute failure gives 500 with the driver's message, and every 500 is one; without one the update always gets 200, which overwrites only the named row, keeps its id and every other row, is silent for a missing row, and echoes the decoded body; any failure leaves the table unchanged |
| ItemApi.DeleteItem | api/api.go:156-177 | An empty id gives 400 "Missing item ID"; a prepare or execute failure gives 500 with the driver's message, and every 500 is one; without one the delete always gets 200 `{"result":"success"}` and removes only the named row, if there is one; any failure leaves the table unchanged |
| ItemApi.Classify | api/api.go:201-227 | GET and POST on `/api/items` go to list and create; GET, PUT and DELETE on `/api/item` go to get, update and delete; any other method on those paths is not allowed; every other path goes to the static files |
| ItemApi.Dispatch | api/api.go:201-223 | List and create on `/api/items` run GetItems and CreateItem; get, update and delete on `/api/item` run GetItem, UpdateItem and DeleteItem with the request's id and body; a method not allowed on an API path gives 405 `{"error":"Method not allowed"}` with the table unchanged, and 405 means nothing else; only non-API paths fall through |
| ItemApi.Serve | api/api.go:184-223 | The response carries the handler's status and payload as JSON; an encoding failure gives 500 and the plain text "Error encoding response", and plain text means nothing else; the table is the handler's |
| ItemApiProperties.UnsupportedMethodRejected | api/api.go:207-208 | On either API path an unsupported method gives 405 `{"error":"Method not allowed"}` and leaves the table unchanged |
| ItemApiProperties.CreateThenGet | api/api.go:77-120 | Fetching the id a successful create returned gives 200 and an item equal to the create reply |
| ItemApiProperties.CreateAssignsFreshId | api/api.go:37 | A created row's id exceeds every id ever assigned; it was unused; exactly one row is added |
| ItemApiProperties.CreateIgnoresClientId | api/api.go:92-119 | The id in a create body changes neither the table nor the reply |
| ItemApiProperties.DeleteTwiceThenGet | api/api.go:156-177 | Deleting an id twice gives `{"result":"success"}` both times; the second delete changes nothing; a following get gives 404 |
| ItemApiProperties.UpdateThenGet | api/api.go:124-152 | After an update, a get with the same id gives the new name and value under the unchanged id |
| ItemApiProperties.StatusMeaning | api/api.go:47-223 | Each status has one meaning: 400 is a rejected id or body with the table unchanged; 404 is a get that matched no row; 405 is an unsupported method; 500 is a driver failure or exhausted ids; 201 is a created row; only 200 and 201 avoid the error envelope; only create, update and delete change the table |
| ItemApiProperties.ServePreservesValid | api/api.go:37 | No request breaks the table invariant: ids lie between 1 and the counter, and the counter fits a 64-bit rowid |
| ItemApiProperties.ReadsIgnoreWriteFaults | api/api.go:47-88 | A driver fault at prepare, execute or `LastInsertId` leaves listing and getting exactly as on a healthy database |
| ItemApiProperties.WritesIgnoreReadFaults | api/api.go:124-177 | A driver fault at query, scan or `LastInsertId` leaves updating and deleting exactly as on a healthy database |
| ItemApiProperties.CreateIgnoresReadFaults | api/api.go:91-121 | A driver fault at query or scan leaves creating exactly as on a healthy database |
| ItemApiProperties.ListValid | api/api.go:47-65 | Listing a valid non-empty table on a healthy database gives 200 with one item per row, each equal to its stored row, every row present, ids within 1..counter and strictly ascending |
| ItemApiProperties.RunPreservesValid | api/api.go:37 | The invariant holds after any sequence of requests, whatever the database does |
| ItemApiProperties.CreateStep | api/api.go:91-120 | A create on a healthy database with ids left stores the decoded name and value as one plain insert |
| ItemApiProperties.CreateAllIsInsertAll | api/api.go:100-120 | N creates of decodable bodies on a healthy database leave the same table as inserting the bodies' rows one by one |
| ItemApiProperties.CreateAllAddsRows | api/api.go:100-120 | N successful creates add exactly N rows, advance the counter by N, keep the table valid, and leave every earlier row with its name and value |
| ItemApiProperties.InsertAllAddsRows | api/api.go:36-37 | N inserts add exactly N rows, advance the counter by N, keep the table valid, and leave every earlier row as it was |
| ItemApiProperties.InsertAllKeepsRow | api/api.go:36-37 | Later inserts leave an existing row's name and value as they were |
| ItemApiProperties.CreateAllStoresBodies | api/api.go:100-120 | The i-th of N creates stores the i-th body's name and value under id counter + i + 1, and the later creates keep that row |
| ItemApiProperties.InsertAllStoresRows | api/api.go:36-37 | The i-th of N inserts stores its row under id counter + i + 1, and the later inserts keep it |
| ItemApiProperties.CreateAllThenList | api/api.go:47-120 | After N creates of decodable bodies on a fresh table, listing gives 200 with exactly N items, the j-th having id j + 1 and the j-th body's name and value |
| ItemApiProperties.InsertAllThenList | api/api.go:36-65 | After N inserts into a fresh table, listing gives 200 with exactly N items, the j-th having id j + 1 and the j-th row's name and value |
| ItemApiProperties.ListOfHeld | api/api.go:47-65 | A table holding exactly N rows under ids 1..N, with counter N, lists as those rows in id order |
| ItemApiProperties.ListOfRows | api/api.go:48-63 | A scan of such a table, one item per row in ascending id order, has the j-th row under id j + 1 at position j |
| Auth.NewAuthManager | auth.go:22-27 | A new manager has no users and no sessions, and is consistent |
| Auth.Register | auth.go:30-45 | A new name adds exactly that user with that password and changes no other user and no session; a taken name fails "user already exists" and changes nothing, so the stored password stays |
| Auth.Login | auth.go:48-64 | An unknown user fails "user not found" whatever the password; a wrong password fails "invalid password"; success is exactly a matching password and adds only that user's session; a failure changes nothing; users never change |
| Auth.Logout | auth.go:67-78 | A user not logged in fails "user not logged in" and nothing changes; otherwise only that session is removed |
| Auth.IsLoggedIn | auth.go:81-85 | A user is logged in exactly when Logout would succeed for them; in a consistent state a logged-in user is registered |
| Auth.Message | auth.go:35-72 | Each failure has its own text: "user already exists", "user not found", "invalid password", "user not logged in", and each text belongs to that failure only |
| Auth.ApplyPreserves | auth.go:38-75 | Every operation keeps each session owned by a registered user; users are never removed or altered; only Register changes users; only a successful Login of that user adds a session |
| Auth.RunPreservesConsistent | auth.go:38-75 | Any sequence of operations keeps the state consistent and never loses a user |
| Auth.ReachableConsistent | auth.go:22-27 | Every state reachable from a new manager is consistent |
| Auth.RegisterThenLogin | auth.go:38-61 | After registering, Login with that password succeeds, and Login with another fails "invalid password" |
| Auth.LoginIdempotent | auth.go:61 | After a successful Login, `IsLoggedIn` is true, and repeating the Login gives the identical state and outcome |
| Auth.LogoutEndsSession | auth.go:71-85 | Logging out a logged-in user succeeds; `IsLoggedIn` becomes false for that user only; a second Logout fails "user not logged in" |
| Auth.MessagesDistinct | auth.go:35-72 | The four error outcomes have distinct messages |
| Todo.Add | todo.go:35-40 | Adding appends one open task numbered length + 1 with the given title; earlier tasks are unchanged; numbering 1..n is kept |
| Todo.FirstWithId | todo.go:62-63 | Finds the first position holding the id, or reports that no task has it |
| Todo.Marked | todo.go:62-69 | Marking completes the first task with the id and changes nothing else; an unknown id leaves the list unchanged; ids and titles never change; no task is reopened |
| Todo.MarkComplete | todo.go:61-72 | The loop reports found exactly when some task has the id, and leaves the list that marking the first such task gives |
| Todo.MarkedIdempotent | todo.go:64 | Marking the same id twice gives the same list as marking it once |
| Todo.MarkedWellNumbered | todo.go:36-69 | In a list numbered 1..n, id k is found exactly when 1 <= k <= n, at position k - 1, and marking keeps the numbering |
| Todo.RenderLine | todo.go:49-53 | A line is "[", the mark (✓ if complete, else a space), "] ", the number, ". " and the title; the number is written as `%d` writes it (minus only for negatives, no `+`, no leading zero) and reads back as the task's id |
| Todo.Render | todo.go:44-55 | An empty list prints "No tasks found!"; otherwise a heading, then one rendered line per task, in list order |
| Todo.Step | todo.go:30-80 | Option 1 adds, 2 lists, 3 marks and reports found or not found, 4 says goodbye and ends the loop; any other choice prints "Invalid option! Please try again." and leaves the list unchanged |
| Todo.Run | todo.go:19-81 | The loop ends exactly when some round chose option 4, and a leading option 4 ends it at once |
| Todo.StepPreserves | todo.go:36-64 | Every round keeps the numbering 1..n, keeps every task's id and title, and reopens no task |
| Todo.RunPreserves | todo.go:36-64 | Any run of rounds keeps the numbering 1..n and reopens no task |
| Todo.WellNumberedUniqueIds | todo.go:36 | In a list numbered 1..n, no two tasks share an id |

## Left out

- SQLite itself is left out: the driver, `sql.Open`, connections, prepared statements and row scanning. They are replaced by the abstract `Store` and the `Fault` oracle, and a driver error surfaces only as its message.
- SqlKey: `Get` and `Delete` pass the raw id text to SQL. The model matches it against the integer key only when Atoi accepts it. SQLite's own text-to-number conversion also accepts some texts Atoi rejects, such as surrounding spaces and `5.0`. Those are treated as matching no row.
- ItemApi.GetItems: a scan failure is modelled as failing on the first row, which gives the same 500 as failing on a later row. The source never checks `rows.Err()`. An error that stops the iteration early therefore yields 200 with a truncated list, and this is not modelled.
- JSON is left out at the byte level: encoding, escaping, and which inputs are undecodable. `RequestBody` abstracts the decoded shape. Data after the first JSON value, which `json.Decoder` ignores, is not represented.
- The `marshalFails` oracle models a failure `json.Marshal` cannot actually have for these payloads. Headers (`Content-Type`) are not modelled.
- The HTTP server is left out: the static `FileServer` behind `/`, `Run`, `main` and logging. A request to any other path is only classified as going to the static files. `ServeMux` redirects unclean paths such as `/api//items`, and that redirect is not modelled either.
- Concurrency is left out: interleaving between requests, and the `sync.RWMutex` in the session manager. Each request and each manager operation is one atomic step.
- The session manager's `Printf` side effects and its demo `main` are left out.
- The todo list's stdin scanning and prompt printing are left out. The parsed choice, title and id are inputs. A number `Scanln` cannot read arrives as 0, which the caller passes in.
- Todo.Add: the new id is `len(tasks) + 1` as an unbounded integer. A 64-bit overflow cannot happen for a list held in memory.

=== FILE: auth.dfy ===
/**
  The session manager: registered users with their passwords, and the set
  of users currently logged in. Every operation holds the manager's lock
  from start to end, so each is one atomic step from state to state.
*/
module Auth {
  import opened Wrappers

  datatype User = User(username: string, password: string)

  /**
    The manager's state. Sessions are a map to `true` in the source; no
    entry is ever set to `false`, so the set of keys says the same.
  */
  datatype AuthManager = AuthManager(users: map<string, User>, activeSessions: set<string>)

  datatype AuthError = UserAlreadyExists | UserNotFound | InvalidPassword | UserNotLoggedIn

  /** The text of the error each failure returns. */
  function Message(e: AuthError): (r: string)
    ensures r == "user already exists" <==> e == UserAlreadyExists
    ensures r == "user not found" <==> e == UserNotFound
    ensures r == "invalid password" <==> e == InvalidPassword
    ensures r == "user not logged in" <==> e == UserNotLoggedIn
  {
    match e
    case UserAlreadyExists => "user already exists"
    case UserNotFound => "user not found"
    case InvalidPassword => "invalid password"
    case UserNotLoggedIn => "user not logged in"
  }

  /** The state after an operation, and whether it returned an error. */
  datatype Transition = Transition(manager: AuthManager, outcome: Outcome<AuthError>)

  /**
    What every reachable state satisfies: each user is filed under its own
    name, and each active session belongs to a registered user.
  */
  predicate Consistent(am: AuthManager) {
    && (forall u :: u in am.users ==> am.users[u].username == u)
    && (forall u :: u in am.activeSessions ==> u in am.users)
  }

  /** `NewAuthManager`: no users, no sessions. */
  function NewAuthManager(): (am: AuthManager)
    ensures am.users == map[] && am.activeSessions == {}
    ensures Consistent(am)
  {
    AuthManager(map[], {})
  }

  /** `Register`: a new account, unless the name is taken. */
  function Register(am: AuthManager, username: string, password: string): (r: Transition)
    ensures username in am.users ==> r == Transition(am, Fail(UserAlreadyExists))
    ensures username !in am.users ==>
              && r.outcome == Pass
              && r.manager.activeSessions == am.activeSessions
              && r.manager.users.Keys == am.users.Keys + {username}
              && r.manager.users[username] == User(username, password)
              && (forall u :: u in am.users ==> r.manager.users[u] == am.users[u])
  {
    if username in am.users then Transition(am, Fail(UserAlreadyExists))
    else Transition(am.(users := am.users[username := User(username, password)]), Pass)
  }

  /** `Login`: the user must exist (checked first), then the password must match. */
  function Login(am: AuthManager, username: string, password: string): (r: Transition)
    ensures username !in am.users ==> r == Transition(am, Fail(UserNotFound))
    ensures username in am.users && am.users[username].password != password ==>
              r == Transition(am, Fail(InvalidPassword))
    ensures r.outcome == Pass <==> username in am.users && am.users[username].password == password
    ensures r.manager.users == am.users
    ensures r.outcome == Pass ==> r.manager.activeSessions == am.activeSessions + {username}
    ensures r.outcome.Fail? ==> r.manager == am
  {
    if username !in am.users then Transition(am, Fail(UserNotFound))
    else if am.users[username].password != password then Transition(am, Fail(InvalidPassword))
    else Transition(am.(activeSessions := am.activeSessions + {username}), Pass)
  }

  /** `Logout`: ends the user's session, if there is one. */
  function Logout(am: AuthManager, username: string): (r: Transition)
    ensures username !in am.activeSessions ==> r == Transition(am, Fail(UserNotLoggedIn))
    ensures username in am.activeSessions ==>
              && r.outcome == Pass
              && r.manager.users == am.users
              && r.manager.activeSessions == am.activeSessions - {username}
  {
    if username !in am.activeSessions then Transition(am, Fail(UserNotLoggedIn))
    else Transition(am.(activeSessions := am.activeSessions - {username}), Pass)
  }

  /** `IsLoggedIn`: a read of the state; it returns no new state, so it changes nothing. */
  function IsLoggedIn(am: AuthManager, username: string): (r: bool)
    ensures r <==> Logout(am, username).outcome == Pass
    ensures r && Consistent(am) ==> username in am.users
  {
    username in am.activeSessions
  }

  /** The operations that change the manager's state. */
  datatype Op = RegisterOp(username: string, password: string)
              | LoginOp(username: string, password: string)
              | LogoutOp(username: string)

  function Apply(am: AuthManager, op: Op): Transition {
    match op
    case RegisterOp(u, p) => Register(am, u, p)
    case LoginOp(u, p) => Login(am, u, p)
    case LogoutOp(u) => Logout(am, u)
  }

  /** The state after running `ops` in order, ignoring their errors as the source's callers may. */
  function Run(am: AuthManager, ops: seq<Op>): AuthManager
    decreases |ops|
  {
    if |ops| == 0 then am else Run(Apply(am, ops[0]).manager, ops[1..])
  }

  /**
    Every operation keeps the state consistent; users are never removed or
    changed, only Register adds one, and only a successful Login adds a
    session.
  */
  lemma ApplyPreserves(am: AuthManager, op: Op)
    requires Consistent(am)
    ensures var r := Apply(am, op);
            && Consistent(r.manager)
            && am.users.Keys <= r.manager.users.Keys
            && (forall u :: u in am.users ==> r.manager.users[u] == am.users[u])
            && (!op.RegisterOp? ==> r.manager.users == am.users)
            && (forall u :: u in r.manager.activeSessions && u !in am.activeSessions ==>
                  op.LoginOp? && op.username == u && r.outcome == Pass)
  {
  }

  /** Consistency holds after any sequence of operations from a consistent state. */
  lemma {:induction false} RunPreservesConsistent(am: AuthManager, ops: seq<Op>)
    requires Consistent(am)
    ensures Consistent(Run(am, ops))
    ensures am.users.Keys <= Run(am, ops).users.Keys
    decreases |ops|
  {
    if |ops| > 0 {
      ApplyPreserves(am, ops[0]);
      RunPreservesConsistent(Apply(am, ops[0]).manager, ops[1..]);
    }
  }

  /** Every state reachable from `NewAuthManager` is consistent. */
  lemma ReachableConsistent(ops: seq<Op>)
    ensures Consistent(Run(NewAuthManager(), ops))
  {
    RunPreservesConsistent(NewAuthManager(), ops);
  }

  /** A newly registered user can log in with the password given, and with no other. */
  lemma RegisterThenLogin(am: AuthManager, username: string, password: string, other: string)
    requires username !in am.users && other != password
    ensures var registered := Register(am, username, password).manager;
            && Login(registered, username, password).outcome == Pass
            && Login(registered, username, other) == Transition(registered, Fail(InvalidPassword))
  {
  }

  /** After a successful Login the user is logged in, and logging in again changes nothing. */
  lemma LoginIdempotent(am: AuthManager, username: string, password: string)
    requires Login(am, username, password).outcome == Pass
    ensures var once := Login(am, username, password);
            && IsLoggedIn(once.manager, username)
            && Login(once.manager, username, password) == once
  {
  }

  /** Logging out a logged-in user ends only that session; a second Logout fails. */
  lemma LogoutEndsSession(am: AuthManager, username: string)
    requires IsLoggedIn(am, username)
    ensures var out := Logout(am, username);
            && out.outcome == Pass
            && !IsLoggedIn(out.manager, username)
            && (forall u :: u != username ==> IsLoggedIn(out.manager, u) == IsLoggedIn(am, u))
            && Logout(out.manager, username) == Transition(out.manager, Fail(UserNotLoggedIn))
  {
  }

  /** The four errors read differently. */
  lemma MessagesDistinct(e1: AuthError, e2: AuthError)
    requires e1 != e2
    ensures Message(e1) != Message(e2)
  {
  }
}

=== FILE: decimal.dfy ===
/**
  Decimal text for integers, as Go's standard library reads and writes it:
  `strconv.Atoi` on the way in (an optional sign, at least one ASCII digit,
  a value that fits the 64-bit `int`) and the `%d` verb on the way out.
  The item service uses the parser for `id` query parameters; the todo
  list uses the printer for task numbers.
*/
module Decimal {
  import opened Wrappers

  const MinInt64: int := -0x8000_0000_0000_0000
  const MaxInt64: int := 0x7FFF_FFFF_FFFF_FFFF

  /** True iff `n` fits Go's 64-bit `int`. */
  predicate InInt64(n: int) {
    MinInt64 <= n <= MaxInt64
  }

  predicate IsDigit(c: char) {
    '0' <= c <= '9'
  }

  predicate AllDigits(s: string) {
    forall i :: 0 <= i < |s| ==> IsDigit(s[i])
  }

  function DigitValue(c: char): (d: nat)
    requires IsDigit(c)
    ensures d < 10
  {
    c as int - '0' as int
  }

  function DigitChar(d: nat): (c: char)
    requires d < 10
    ensures IsDigit(c) && DigitValue(c) == d
  {
    ('0' as int + d) as char
  }

  /** The number a string of digits denotes, most significant digit first. */
  function DigitsValue(s: string): nat
    requires AllDigits(s)
  {
    if |s| == 0 then 0 else DigitsValue(s[..|s| - 1]) * 10 + DigitValue(s[|s| - 1])
  }

  /** The shortest decimal rendering of `n`: digits only, no leading zero. */
  function NatToDecimal(n: nat): (s: string)
    ensures |s| > 0 && AllDigits(s)
    ensures DigitsValue(s) == n
    ensures s[0] == '0' ==> s == "0"
  {
    if n < 10 then [DigitChar(n)]
    else
      var prefix := NatToDecimal(n / 10);
      var s := prefix + [DigitChar(n % 10)];
      assert s[..|s| - 1] == prefix;
      s
  }

  /**
    The texts Atoi reads as an integer: an optional `+` or `-`, then at
    least one ASCII digit and nothing else.
  */
  predicate IntegerText(s: string) {
    && |s| > 0
    && (IsDigit(s[0]) || s[0] == '+' || s[0] == '-')
    && (s[0] == '+' || s[0] == '-' ==> |s| > 1)
    && forall i :: 0 < i < |s| ==> IsDigit(s[i])
  }

  /** The digits of an integer text, without its sign. */
  function Magnitude(s: string): (d: string)
    requires IntegerText(s)
    ensures |d| > 0 && AllDigits(d)
  {
    if IsDigit(s[0]) then s else s[1..]
  }

  /**
    The texts `%d` prints: no `+`, no leading zero, and zero written `0`
    rather than `-0`.
  */
  predicate Canonical(s: string) {
    && IntegerText(s)
    && s[0] != '+'
    && (Magnitude(s)[0] == '0' ==> s == "0")
  }

  /** What `%d` prints for `n`: a minus sign for negatives, then the digits. */
  function IntToDecimal(n: int): (s: string)
    ensures Canonical(s)
    ensures s[0] == '-' <==> n < 0
    ensures ParseInteger(s) == Some(n)
  {
    if n < 0 then
      var digits := NatToDecimal(-n);
      var s := "-" + digits;
      assert s[1..] == digits;
      s
    else NatToDecimal(n)
  }

  /**
    The integer a string spells with an optional leading `+` or `-` and at
    least one digit after it; None for anything else, the empty string included.
  */
  function ParseInteger(s: string): (r: Option<int>)
    ensures r.Some? <==> IntegerText(s)
    ensures r.Some? ==> (if s[0] == '-' then r.value == -(DigitsValue(Magnitude(s)) as int)
                         else r.value == DigitsValue(Magnitude(s)))
  {
    if |s| == 0 then None
    else if s[0] == '+' || s[0] == '-' then
      var digits := s[1..];
      if |digits| > 0 && AllDigits(digits) then
        var magnitude: int := DigitsValue(digits);
        Some(if s[0] == '-' then -magnitude else magnitude)
      else None
    else if AllDigits(s) then Some(DigitsValue(s))
    else None
  }

  /**
    Go's `strconv.Atoi`: an integer text whose value fits `int`. The largest
    magnitude is one more for a negative number than for a positive one.
  */
  function Atoi(s: string): (r: Option<int>)
    ensures r.Some? <==>
              && IntegerText(s)
              && (if s[0] == '-' then DigitsValue(Magnitude(s)) <= -MinInt64
                  else DigitsValue(Magnitude(s)) <= MaxInt64)
    ensures r.Some? ==> InInt64(r.value)
    ensures r.Some? ==> (if s[0] == '-' then r.value == -(DigitsValue(Magnitude(s)) as int)
                         else r.value == DigitsValue(Magnitude(s)))
  {
    match ParseInteger(s)
    case Some(n) => if InInt64(n) then Some(n) else None
    case None => None
  }

  /** Every `int` survives being printed with `%d` and read back with Atoi. */
  lemma AtoiOfDecimal(n: int)
    requires InInt64(n)
    ensures Atoi(IntToDecimal(n)) == Some(n)
  {
  }

  /** A digit string that starts with a non-zero digit denotes a positive number. */
  lemma {:induction false} LeadingDigitPositive(d: string)
    requires |d| > 0 && AllDigits(d) && d[0] != '0'
    ensures DigitsValue(d) > 0
    decreases |d|
  {
    if |d| > 1 {
      LeadingDigitPositive(d[..|d| - 1]);
    }
  }

  /** A digit string with no leading zero is what `%d` prints for its value. */
  lemma {:induction false} NatToDecimalOfDigits(d: string)
    requires |d| > 0 && AllDigits(d)
    requires d[0] == '0' ==> d == "0"
    ensures NatToDecimal(DigitsValue(d)) == d
    decreases |d|
  {
    if |d| > 1 {
      var prefix := d[..|d| - 1];
      var last := DigitValue(d[|d| - 1]);
      assert prefix[0] == d[0];
      LeadingDigitPositive(prefix);
      NatToDecimalOfDigits(prefix);
      var n := DigitsValue(d);
      assert n == DigitsValue(prefix) * 10 + last;
      assert n >= 10 && n / 10 == DigitsValue(prefix) && n % 10 == last;
      assert DigitChar(last) == d[|d| - 1];
      assert d == prefix + [d[|d| - 1]];
    }
  }

  /** Printing what ParseInteger reads from a canonical text gives that text back. */
  lemma DecimalOfParse(s: string)
    requires Canonical(s)
    ensures ParseInteger(s).Some? && IntToDecimal(ParseInteger(s).value) == s
  {
    var d := Magnitude(s);
    NatToDecimalOfDigits(d);
    if s[0] == '-' {
      LeadingDigitPositive(d);
      assert s == "-" + d;
    }
  }

  /** Every text Atoi accepts that has no `+`, no leading zero and is not `-0` is what `%d` prints for its value. */
  lemma DecimalOfAtoi(s: string)
    requires Atoi(s).Some? && Canonical(s)
    ensures IntToDecimal(Atoi(s).value) == s
  {
    DecimalOfParse(s);
  }
}

=== FILE: item_api.dfy ===
/**
  The item HTTP service: the five handlers, the JSON envelope they answer
  with, and the router that picks a handler by path and method.

  Each handler is a function from the table and the request to the table
  afterwards and the reply it writes. What the database driver and the JSON
  encoder do wrong is not visible in the source, so it comes in as an `Env`:
  the stage at which a statement fails (with the driver's message), and
  whether encoding the reply fails.
*/
module ItemApi {
  import opened Wrappers
  import opened ItemStore
  import Decimal

  const StatusOK := 200
  const StatusCreated := 201
  const StatusBadRequest := 400
  const StatusNotFound := 404
  const StatusMethodNotAllowed := 405
  const StatusInternalServerError := 500

  const MissingId := "Missing item ID"
  const InvalidId := "Invalid item ID"
  const InvalidPayload := "Invalid request payload"
  const NotFound := "Item not found"
  const NotAllowed := "Method not allowed"
  const EncodingFailed := "Error encoding response"
  /** The message SQLite gives when AUTOINCREMENT has used up every rowid (SQLITE_FULL). */
  const DatabaseFull := "database or disk is full"

  /**
    A request body as `json.Decoder.Decode` into an `Item` sees it: anything
    that is not a JSON value of the right shape (an empty body, a syntax
    error, an array, a field of the wrong type), the literal `null`, or an
    object with some of the three fields (a field given as `null` counts as
    absent).
  */
  datatype RequestBody =
    | Undecodable
    | JsonNull
    | JsonObject(id: Option<int>, name: Option<string>, value: Option<string>)

  /** The item a body decodes to; absent fields keep Go's zero values. */
  function Decode(body: RequestBody): (r: Option<Item>)
    ensures body.Undecodable? ==> r.None?
    ensures body.JsonNull? ==> r == Some(Item(0, "", ""))
    ensures body.JsonObject? && r.Some? ==>
              && r.value.name == body.name.GetOr("")
              && r.value.value == body.value.GetOr("")
              && r.value.id == body.id.GetOr(0)
    ensures body.JsonObject? ==>
              (r.Some? <==> (body.id.None? || Decimal.InInt64(body.id.value)))
  {
    match body
    case Undecodable => None
    case JsonNull => Some(Item(0, "", ""))
    case JsonObject(id, name, value) =>
      if id.Some? && !Decimal.InInt64(id.value) then None
      else Some(Item(id.GetOr(0), name.GetOr(""), value.GetOr("")))
  }

  /**
    How SQLite matches the raw `id` text against the integer primary key:
    text that reads as an integer compares equal to that integer, any other
    text equals no row.
  */
  function SqlKey(id: string): (r: Option<int>)
    ensures r.Some? ==> Decimal.InInt64(r.value) && Decimal.ParseInteger(id) == r
    ensures Decimal.ParseInteger(id).Some? && Decimal.InInt64(Decimal.ParseInteger(id).value) ==>
              r == Decimal.ParseInteger(id)
    ensures forall n :: Decimal.InInt64(n) && id == Decimal.IntToDecimal(n) ==> r == Some(n)
  {
    Decimal.Atoi(id)
  }

  /** The point at which a database call reports an error. */
  datatype Stage = Querying | Scanning | Preparing | Executing | ReadingInsertId

  datatype Fault = Healthy | FailAt(stage: Stage, message: string)

  /** What the driver and the encoder do on this request. */
  datatype Env = Env(fault: Fault, marshalFails: bool)

  /** The driver's error message, if the call at `stage` fails. */
  function FailureAt(env: Env, stage: Stage): (r: Option<string>)
    ensures r.Some? <==> env.fault.FailAt? && env.fault.stage == stage
    ensures r.Some? ==> r.value == env.fault.message
  {
    match env.fault
    case FailAt(st, message) => if st == stage then Some(message) else None
    case Healthy => None
  }

  /** True iff the driver fails at one of `stages`; a handler only reaches some of them. */
  predicate FailsIn(env: Env, stages: set<Stage>) {
    env.fault.FailAt? && env.fault.stage in stages
  }

  /**
    What a handler hands to the encoder. A list with no rows is Go's nil
    slice, which encodes as `null`, hence the separate `NullPayload`.
  */
  datatype Payload =
    | ItemPayload(item: Item)
    | ItemListPayload(items: seq<Item>)
    | NullPayload
    | ResultPayload(result: string)
    | ErrorPayload(error: string)

  datatype Reply = Reply(code: int, payload: Payload)

  /** The table after a handler has run, and the reply it writes. */
  datatype Handled = Handled(store: Store, reply: Reply)

  /** The bytes sent back: a JSON document, or the plain-text fallback. */
  datatype Body = Json(payload: Payload) | PlainText(text: string)

  datatype Response = Response(status: int, body: Body)

  /** `respondWithError`: the message wrapped as `{"error": message}`. */
  function RespondWithError(code: int, message: string): (r: Reply)
    ensures r.code == code && r.payload.ErrorPayload? && r.payload.error == message
  {
    Reply(code, ErrorPayload(message))
  }

  /**
    `respondWithJSON`: the reply as JSON with its own status, unless the
    encoder fails, in which case 500 and a fixed plain-text message.
  */
  function RespondWithJSON(reply: Reply, env: Env): (r: Response)
    ensures !env.marshalFails ==> r.status == reply.code && r.body == Json(reply.payload)
    ensures env.marshalFails ==> r.status == StatusInternalServerError && r.body == PlainText(EncodingFailed)
  {
    if env.marshalFails then Response(StatusInternalServerError, PlainText(EncodingFailed))
    else Response(reply.code, Json(reply.payload))
  }

  /** `GetItems`: every row, in scan order; `null` when there are none. */
  function GetItems(s: Store, env: Env): (r: Handled)
    ensures r.store == s
    ensures FailureAt(env, Querying).Some? ==>
              r.reply == RespondWithError(StatusInternalServerError, env.fault.message)
    ensures FailureAt(env, Querying).None? && |s.rows| == 0 ==> r.reply == Reply(StatusOK, NullPayload)
    ensures !FailsIn(env, {Querying, Scanning}) && |s.rows| > 0 ==>
              && r.reply.code == StatusOK && r.reply.payload.ItemListPayload?
              && var items := r.reply.payload.items;
                 && |items| == |s.rows|
                 && (forall i :: 0 <= i < |items| ==> items[i].id in s.rows && items[i] == ItemAt(s, items[i].id))
                 && (forall id :: id in s.rows ==> Lists(items, id))
                 && (forall i, j :: 0 <= i < j < |items| ==> items[i].id < items[j].id)
    ensures FailureAt(env, Scanning).Some? && |s.rows| > 0 ==>
              r.reply == RespondWithError(StatusInternalServerError, env.fault.message)
    ensures r.reply.code != StatusOK ==>
              FailsIn(env, {Querying, Scanning}) &&
              r.reply == RespondWithError(StatusInternalServerError, env.fault.message)
  {
    if FailureAt(env, Querying).Some? then
      Handled(s, RespondWithError(StatusInternalServerError, env.fault.message))
    else if FailureAt(env, Scanning).Some? && |s.rows| > 0 then
      // the first row's Scan already fails
      Handled(s, RespondWithError(StatusInternalServerError, env.fault.message))
    else if |s.rows| == 0 then
      Handled(s, Reply(StatusOK, NullPayload))
    else
      Handled(s, Reply(StatusOK, ItemListPayload(Scan(s))))
  }

  /** `GetItem`: the row named by the `id` query parameter. */
  function GetItem(s: Store, id: string, env: Env): (r: Handled)
    ensures r.store == s
    ensures id == "" ==> r.reply == RespondWithError(StatusBadRequest, MissingId)
    ensures id != "" && FailureAt(env, Querying).None? &&
            (SqlKey(id).None? || SqlKey(id).value !in s.rows) ==>
              r.reply == RespondWithError(StatusNotFound, NotFound)
    ensures id != "" && FailureAt(env, Querying).Some? ==>
              r.reply == RespondWithError(StatusInternalServerError, env.fault.message)
    ensures id != "" && FailureAt(env, Scanning).Some? && SqlKey(id).Some? && SqlKey(id).value in s.rows ==>
              r.reply == RespondWithError(StatusInternalServerError, env.fault.message)
    ensures id != "" && !FailsIn(env, {Querying, Scanning}) && SqlKey(id).Some? && SqlKey(id).value in s.rows ==>
              r.reply == Reply(StatusOK, ItemPayload(ItemAt(s, SqlKey(id).value)))
    ensures r.reply.code == StatusInternalServerError ==>
              FailsIn(env, {Querying, Scanning}) && r.reply == RespondWithError(StatusInternalServerError, env.fault.message)
    ensures r.reply.code in {StatusOK, StatusBadRequest, StatusNotFound, StatusInternalServerError}
  {
    if id == "" then
      Handled(s, RespondWithError(StatusBadRequest, MissingId))
    else if FailureAt(env, Querying).Some? then
      Handled(s, RespondWithError(StatusInternalServerError, env.fault.message))
    else
      match SqlKey(id)
      case None => Handled(s, RespondWithError(StatusNotFound, NotFound))
      case Some(key) =>
        match Lookup(s, key)
        case None => Handled(s, RespondWithError(StatusNotFound, NotFound))
        case Some(item) =>
          if FailureAt(env, Scanning).Some? then
            Handled(s, RespondWithError(StatusInternalServerError, env.fault.message))
          else Handled(s, Reply(StatusOK, ItemPayload(item)))
  }

  /**
    `CreateItem`: a new row with the body's name and value under the next
    id. An id in the body is decoded but then replaced by the assigned one.
  */
  function CreateItem(s: Store, body: RequestBody, env: Env): (r: Handled)
    ensures Decode(body).None? ==>
              r == Handled(s, RespondWithError(StatusBadRequest, InvalidPayload))
    ensures r.reply.code != StatusCreated && FailureAt(env, ReadingInsertId).None? ==> r.store == s
    ensures r.reply.code == StatusCreated ==>
              && Decode(body).Some?
              && var item := Decode(body).value;
                 && r.reply.payload == ItemPayload(Item(NextId(s), item.name, item.value))
                 && r.store.rows == s.rows[NextId(s) := Row(item.name, item.value)]
                 && r.store.counter == NextId(s)
    ensures Decode(body).Some? && !FailsIn(env, {Preparing, Executing, ReadingInsertId}) &&
            s.counter < Decimal.MaxInt64 ==>
              r.reply.code == StatusCreated
    ensures Decode(body).Some? && !FailsIn(env, {Preparing, Executing}) && s.counter >= Decimal.MaxInt64 ==>
              r == Handled(s, RespondWithError(StatusInternalServerError, DatabaseFull))
    ensures Decode(body).Some? && !FailsIn(env, {Preparing, Executing}) && s.counter < Decimal.MaxInt64 &&
            FailureAt(env, ReadingInsertId).Some? ==>
              r == Handled(Insert(s, Decode(body).value.name, Decode(body).value.value),
                           RespondWithError(StatusInternalServerError, env.fault.message))
    ensures Decode(body).Some? && (FailureAt(env, Preparing).Some? || FailureAt(env, Executing).Some?) ==>
              r == Handled(s, RespondWithError(StatusInternalServerError, env.fault.message))
    ensures r.reply.code == StatusInternalServerError ==>
              || (FailsIn(env, {Preparing, Executing, ReadingInsertId}) &&
                  r.reply == RespondWithError(StatusInternalServerError, env.fault.message))
              || (s.counter >= Decimal.MaxInt64 && r.reply == RespondWithError(StatusInternalServerError, DatabaseFull))
    ensures r.reply.code in {StatusCreated, StatusBadRequest, StatusInternalServerError}
    ensures Valid(s) ==> Valid(r.store)
  {
    match Decode(body)
    case None => Handled(s, RespondWithError(StatusBadRequest, InvalidPayload))
    case Some(item) =>
      if FailureAt(env, Preparing).Some? || FailureAt(env, Executing).Some? then
        Handled(s, RespondWithError(StatusInternalServerError, env.fault.message))
      else if s.counter >= Decimal.MaxInt64 then
        Handled(s, RespondWithError(StatusInternalServerError, DatabaseFull))
      else
        var s' := Insert(s, item.name, item.value);
        if FailureAt(env, ReadingInsertId).Some? then
          // the row is already in the table when LastInsertId fails
          Handled(s', RespondWithError(StatusInternalServerError, env.fault.message))
        else
          Handled(s', Reply(StatusCreated, ItemPayload(item.(id := NextId(s)))))
  }

  /**
    `UpdateItem`: the row named by `id` gets the body's name and value. The
    reply echoes the decoded body, whose id is whatever the client sent.
  */
  function UpdateItem(s: Store, id: string, body: RequestBody, env: Env): (r: Handled)
    ensures Decimal.Atoi(id).None? ==> r == Handled(s, RespondWithError(StatusBadRequest, InvalidId))
    ensures Decimal.Atoi(id).Some? && Decode(body).None? ==>
              r == Handled(s, RespondWithError(StatusBadRequest, InvalidPayload))
    ensures r.reply.code != StatusOK ==> r.store == s
    ensures r.reply.code == StatusOK ==>
              && Decimal.Atoi(id).Some? && Decode(body).Some?
              && var key, item := Decimal.Atoi(id).value, Decode(body).value;
                 && r.reply.payload == ItemPayload(item)
                 && r.store.counter == s.counter
                 && r.store.rows.Keys == s.rows.Keys
                 && (key in s.rows ==> r.store.rows[key] == Row(item.name, item.value))
                 && (key !in s.rows ==> r.store == s)
                 && (forall k :: k in s.rows && k != key ==> r.store.rows[k] == s.rows[k])
    ensures Decimal.Atoi(id).Some? && Decode(body).Some? && !FailsIn(env, {Preparing, Executing}) ==>
              r.reply.code == StatusOK
    ensures Decimal.Atoi(id).Some? && Decode(body).Some? &&
            (FailureAt(env, Preparing).Some? || FailureAt(env, Executing).Some?) ==>
              r == Handled(s, RespondWithError(StatusInternalServerError, env.fault.message))
    ensures r.reply.code == StatusInternalServerError ==>
              FailsIn(env, {Preparing, Executing}) &&
              r.reply == RespondWithError(StatusInternalServerError, env.fault.message)
    ensures r.reply.code in {StatusOK, StatusBadRequest, StatusInternalServerError}
    ensures Valid(s) ==> Valid(r.store)
  {
    match Decimal.Atoi(id)
    case None => Handled(s, RespondWithError(StatusBadRequest, InvalidId))
    case Some(key) =>
      match Decode(body)
      case None => Handled(s, RespondWithError(StatusBadRequest, InvalidPayload))
      case Some(item) =>
        if FailureAt(env, Preparing).Some? || FailureAt(env, Executing).Some? then
          Handled(s, RespondWithError(StatusInternalServerError, env.fault.message))
        else
          Handled(Update(s, key, item.name, item.value), Reply(StatusOK, ItemPayload(item)))
  }

  /** `DeleteItem`: the row named by `id` goes, if there is one. */
  function DeleteItem(s: Store, id: string, env: Env): (r: Handled)
    ensures id == "" ==> r == Handled(s, RespondWithError(StatusBadRequest, MissingId))
    ensures r.reply.code != StatusOK ==> r.store == s
    ensures r.reply.code == StatusOK ==>
              && r.reply.payload == ResultPayload("success")
              && r.store.counter == s.counter
              && (SqlKey(id).Some? ==> r.store.rows.Keys == s.rows.Keys - {SqlKey(id).value})
              && (SqlKey(id).None? ==> r.store == s)
              && (forall k :: k in r.store.rows ==> r.store.rows[k] == s.rows[k])
    ensures id != "" && !FailsIn(env, {Preparing, Executing}) ==> r.reply.code == StatusOK
    ensures id != "" && (FailureAt(env, Preparing).Some? || FailureAt(env, Executing).Some?) ==>
              r == Handled(s, RespondWithError(StatusInternalServerError, env.fault.message))
    ensures r.reply.code == StatusInternalServerError ==>
              FailsIn(env, {Preparing, Executing}) &&
              r.reply == RespondWithError(StatusInternalServerError, env.fault.message)
    ensures r.reply.code in {StatusOK, StatusBadRequest, StatusInternalServerError}
    ensures Valid(s) ==> Valid(r.store)
  {
    if id == "" then
      Handled(s, RespondWithError(StatusBadRequest, MissingId))
    else if FailureAt(env, Preparing).Some? || FailureAt(env, Executing).Some? then
      Handled(s, RespondWithError(StatusInternalServerError, env.fault.message))
    else
      var s' := match SqlKey(id) case Some(key) => Delete(s, key) case None => s;
      Handled(s', Reply(StatusOK, ResultPayload("success")))
  }

  /**
    A request as the handlers read it: the method (`verb`), the URL path, the first
    value of the `id` query parameter ("" when there is none) and the body.
  */
  datatype Request = Request(verb: string, path: string, id: string, body: RequestBody)

  /** The handler, if any, that `SetupRoutes` sends a request to. */
  datatype Target = ListItems | CreateOne | GetOne | UpdateOne | DeleteOne | MethodNotAllowed | StaticFiles

  function Classify(verb: string, path: string): (r: Target)
    ensures r == ListItems <==> path == "/api/items" && verb == "GET"
    ensures r == CreateOne <==> path == "/api/items" && verb == "POST"
    ensures r == GetOne <==> path == "/api/item" && verb == "GET"
    ensures r == UpdateOne <==> path == "/api/item" && verb == "PUT"
    ensures r == DeleteOne <==> path == "/api/item" && verb == "DELETE"
    ensures r == MethodNotAllowed <==>
              || (path == "/api/items" && verb !in {"GET", "POST"})
              || (path == "/api/item" && verb !in {"GET", "PUT", "DELETE"})
    ensures r == StaticFiles <==> path !in {"/api/items", "/api/item"}
  {
    if path == "/api/items" then
      if verb == "GET" then ListItems
      else if verb == "POST" then CreateOne
      else MethodNotAllowed
    else if path == "/api/item" then
      if verb == "GET" then GetOne
      else if verb == "PUT" then UpdateOne
      else if verb == "DELETE" then DeleteOne
      else MethodNotAllowed
    else StaticFiles
  }

  /**
    The API part of `SetupRoutes`: the handler's outcome, or None when the
    request falls through to the static file server.
  */
  function Dispatch(s: Store, req: Request, env: Env): (r: Option<Handled>)
    ensures r.None? <==> Classify(req.verb, req.path) == StaticFiles
    ensures Classify(req.verb, req.path) == MethodNotAllowed ==>
              r == Some(Handled(s, RespondWithError(StatusMethodNotAllowed, NotAllowed)))
    ensures r.Some? && r.value.reply.code == StatusMethodNotAllowed ==>
              Classify(req.verb, req.path) == MethodNotAllowed
    ensures Classify(req.verb, req.path) == ListItems ==> r == Some(GetItems(s, env))
    ensures Classify(req.verb, req.path) == CreateOne ==> r == Some(CreateItem(s, req.body, env))
    ensures Classify(req.verb, req.path) == GetOne ==> r == Some(GetItem(s, req.id, env))
    ensures Classify(req.verb, req.path) == UpdateOne ==> r == Some(UpdateItem(s, req.id, req.body, env))
    ensures Classify(req.verb, req.path) == DeleteOne ==> r == Some(DeleteItem(s, req.id, env))
  {
    match Classify(req.verb, req.path)
    case ListItems => Some(GetItems(s, env))
    case CreateOne => Some(CreateItem(s, req.body, env))
    case GetOne => Some(GetItem(s, req.id, env))
    case UpdateOne => Some(UpdateItem(s, req.id, req.body, env))
    case DeleteOne => Some(DeleteItem(s, req.id, env))
    case MethodNotAllowed => Some(Handled(s, RespondWithError(StatusMethodNotAllowed, NotAllowed)))
    case StaticFiles => None
  }

  /** The table afterwards and the response written, for an API request. */
  datatype Exchange = Exchange(store: Store, response: Response)

  /** One request through the router, the handler and the encoder. */
  function Serve(s: Store, req: Request, env: Env): (r: Option<Exchange>)
    ensures r.Some? <==> Dispatch(s, req, env).Some?
    ensures r.Some? ==> r.value.store == Dispatch(s, req, env).value.store
    ensures r.Some? && r.value.response.body.PlainText? ==> env.marshalFails
    ensures r.Some? && env.marshalFails ==>
              r.value.response == Response(StatusInternalServerError, PlainText(EncodingFailed))
    ensures r.Some? && !env.marshalFails ==>
              r.value.response == Response(Dispatch(s, req, env).value.reply.code,
                                           Json(Dispatch(s, req, env).value.reply.payload))
  {
    match Dispatch(s, req, env)
    case None => None
    case Some(h) => Some(Exchange(h.store, RespondWithJSON(h.reply, env)))
  }
}

=== FILE: item_api_lemmas.dfy ===
/**
  Properties of the item service that relate several requests, or that
  hold of every request the router accepts.
*/
module ItemApiProperties {
  import opened Wrappers
  import opened ItemStore
  import opened ItemApi
  import Decimal

  /** Neither API path answers an unsupported method with anything but 405, and the table stays as it was. */
  lemma UnsupportedMethodRejected(s: Store, req: Request, env: Env)
    requires req.path in {"/api/items", "/api/item"}
    requires req.path == "/api/items" ==> req.verb !in {"GET", "POST"}
    requires req.path == "/api/item" ==> req.verb !in {"GET", "PUT", "DELETE"}
    requires !env.marshalFails
    ensures Serve(s, req, env) == Some(Exchange(s, Response(StatusMethodNotAllowed, Json(ErrorPayload(NotAllowed)))))
  {
  }

  /** Fetching the id a successful create returned gives back exactly the created item. */
  lemma CreateThenGet(s: Store, body: RequestBody, env: Env)
    requires Valid(s) && env.fault == Healthy
    requires Decode(body).Some? && s.counter < Decimal.MaxInt64
    ensures var created := CreateItem(s, body, env);
            && created.reply.code == StatusCreated
            && created.reply.payload.ItemPayload?
            && var id := Decimal.IntToDecimal(created.reply.payload.item.id);
               GetItem(created.store, id, env).reply == Reply(StatusOK, created.reply.payload)
  {
    Decimal.AtoiOfDecimal(NextId(s));
  }

  /** A created row's id is larger than every id the table has ever given out, so it is fresh. */
  lemma CreateAssignsFreshId(s: Store, body: RequestBody, env: Env)
    requires Valid(s)
    ensures var created := CreateItem(s, body, env);
            created.reply.code == StatusCreated ==>
              && var id := created.reply.payload.item.id;
                 && id > s.counter
                 && (forall k :: k in s.rows ==> k < id)
                 && id !in s.rows
                 && created.store.rows.Keys == s.rows.Keys + {id}
                 && |created.store.rows| == |s.rows| + 1
  {
  }

  /** The id in a create request's body has no effect on the table or the reply. */
  lemma CreateIgnoresClientId(s: Store, name: Option<string>, value: Option<string>, id1: int, id2: int, env: Env)
    requires Decimal.InInt64(id1) && Decimal.InInt64(id2)
    ensures CreateItem(s, JsonObject(Some(id1), name, value), env)
         == CreateItem(s, JsonObject(Some(id2), name, value), env)
  {
  }

  /** Deleting the same id twice succeeds both times, the second time changes nothing, and the row is gone. */
  lemma DeleteTwiceThenGet(s: Store, id: string, env: Env)
    requires id != "" && env.fault == Healthy
    ensures var first := DeleteItem(s, id, env);
            var second := DeleteItem(first.store, id, env);
            && first.reply == Reply(StatusOK, ResultPayload("success"))
            && second.reply == Reply(StatusOK, ResultPayload("success"))
            && second.store == first.store
            && GetItem(second.store, id, env).reply == RespondWithError(StatusNotFound, NotFound)
  {
  }

  /** After an update, fetching the same id shows the new name and value under the unchanged id. */
  lemma UpdateThenGet(s: Store, id: string, body: RequestBody, env: Env)
    requires env.fault == Healthy
    requires Decimal.Atoi(id).Some? && Decimal.Atoi(id).value in s.rows
    requires Decode(body).Some?
    ensures var updated := UpdateItem(s, id, body, env);
            var item := Decode(body).value;
            GetItem(updated.store, id, env).reply
              == Reply(StatusOK, ItemPayload(Item(Decimal.Atoi(id).value, item.name, item.value)))
  {
  }

  /** The handler outcome of a request the router sends to the API. */
  function Routed(s: Store, req: Request, env: Env): Handled
    requires Classify(req.verb, req.path) != StaticFiles
  {
    Dispatch(s, req, env).value
  }

  /**
    Each status code has one meaning: 400 is a rejected id or body, 404 a
    lookup that found no row, 405 an unsupported method, 500 a database
    failure, 201 a created row, 200 any other success; only 200 and 201
    carry something other than the error envelope, and only a create,
    update or delete that reached the database changes the table.
  */
  lemma StatusMeaning(s: Store, req: Request, env: Env)
    requires Classify(req.verb, req.path) != StaticFiles
    ensures var h := Routed(s, req, env);
            var target := Classify(req.verb, req.path);
            && h.reply.code in {StatusOK, StatusCreated, StatusBadRequest, StatusNotFound,
                                StatusMethodNotAllowed, StatusInternalServerError}
            && (h.reply.payload.ErrorPayload? <==> h.reply.code !in {StatusOK, StatusCreated})
            && (h.reply.code == StatusBadRequest ==>
                  && h.store == s
                  && target in {CreateOne, GetOne, UpdateOne, DeleteOne}
                  && h.reply.payload.error in {MissingId, InvalidId, InvalidPayload})
            && (h.reply.code == StatusNotFound ==>
                  && h.store == s && target == GetOne
                  && h.reply.payload == ErrorPayload(NotFound)
                  && (SqlKey(req.id).None? || SqlKey(req.id).value !in s.rows))
            && (h.reply.code == StatusMethodNotAllowed <==> target == MethodNotAllowed)
            && (h.reply.code == StatusInternalServerError ==>
                  env.fault.FailAt? || (target == CreateOne && s.counter >= Decimal.MaxInt64))
            && (h.reply.code == StatusCreated ==> target == CreateOne && h.store != s)
            && (h.store != s ==>
                  target in {CreateOne, UpdateOne, DeleteOne}
                  && h.reply.code in {StatusOK, StatusCreated, StatusInternalServerError})
  {
  }

  /** The table's invariant survives every request. */
  lemma ServePreservesValid(s: Store, req: Request, env: Env)
    requires Valid(s)
    ensures Serve(s, req, env).Some? ==> Valid(Serve(s, req, env).value.store)
  {
  }

  /** The table after a run of requests (requests for static files leave it alone). */
  function RunRequests(s: Store, reqs: seq<Request>, envs: seq<Env>): Store
    requires |envs| == |reqs|
    decreases |reqs|
  {
    if |reqs| == 0 then s
    else
      var next := match Serve(s, reqs[0], envs[0]) case Some(x) => x.store case None => s;
      RunRequests(next, reqs[1..], envs[1..])
  }

  /** No run of requests breaks the invariant: ids stay unique and below the counter. */
  lemma {:induction false} RunPreservesValid(s: Store, reqs: seq<Request>, envs: seq<Env>)
    requires |envs| == |reqs| && Valid(s)
    ensures Valid(RunRequests(s, reqs, envs))
    decreases |reqs|
  {
    if |reqs| > 0 {
      ServePreservesValid(s, reqs[0], envs[0]);
      var next := match Serve(s, reqs[0], envs[0]) case Some(x) => x.store case None => s;
      RunPreservesValid(next, reqs[1..], envs[1..]);
    }
  }

  /** The table after creating one item per body, each on a healthy database. */
  function CreateAll(s: Store, bodies: seq<RequestBody>): Store
    decreases |bodies|
  {
    if |bodies| == 0 then s
    else CreateAll(CreateItem(s, bodies[0], Env(Healthy, false)).store, bodies[1..])
  }

  /** The row a decodable create body is stored as. */
  function BodyRow(body: RequestBody): Row
    requires Decode(body).Some?
  {
    Row(Decode(body).value.name, Decode(body).value.value)
  }

  /** True iff every create body decodes. */
  predicate AllDecode(bodies: seq<RequestBody>) {
    forall i :: 0 <= i < |bodies| ==> Decode(bodies[i]).Some?
  }

  /** The rows decodable create bodies are stored as, in order. */
  function BodyRows(bodies: seq<RequestBody>): (rows: seq<Row>)
    requires AllDecode(bodies)
    ensures |rows| == |bodies|
    ensures forall i :: 0 <= i < |bodies| ==> rows[i] == BodyRow(bodies[i])
    decreases |bodies|
  {
    if |bodies| == 0 then []
    else
      var rest := BodyRows(bodies[1..]);
      var rows := [BodyRow(bodies[0])] + rest;
      assert forall i :: 0 < i < |rows| ==> rows[i] == rest[i - 1];
      rows
  }

  /** A create on a healthy database with ids left stores the body as one plain insert. */
  lemma CreateStep(s: Store, body: RequestBody)
    requires Decode(body).Some? && s.counter < Decimal.MaxInt64
    ensures CreateItem(s, body, Env(Healthy, false)).store == Insert(s, BodyRow(body).name, BodyRow(body).value)
  {
  }

  /** The table after inserting the rows one by one, straight into the store. */
  function InsertAll(s: Store, rows: seq<Row>): Store
    requires s.counter + |rows| <= Decimal.MaxInt64
    decreases |rows|
  {
    if |rows| == 0 then s
    else InsertAll(Insert(s, rows[0].name, rows[0].value), rows[1..])
  }

  /** N creates through the handler on a healthy database are N plain inserts of the bodies' rows. */
  lemma {:induction false} CreateAllIsInsertAll(s: Store, bodies: seq<RequestBody>)
    requires AllDecode(bodies)
    requires s.counter + |bodies| <= Decimal.MaxInt64
    ensures CreateAll(s, bodies) == InsertAll(s, BodyRows(bodies))
    decreases |bodies|
  {
    if |bodies| > 0 {
      var rows := BodyRows(bodies);
      assert rows[0] == BodyRow(bodies[0]) && rows[1..] == BodyRows(bodies[1..]);
      CreateStep(s, bodies[0]);
      CreateAllIsInsertAll(Insert(s, BodyRow(bodies[0]).name, BodyRow(bodies[0]).value), bodies[1..]);
    }
  }

  /** After N successful creates the table holds N more rows, and every earlier row is still there. */
  lemma CreateAllAddsRows(s: Store, bodies: seq<RequestBody>)
    requires Valid(s)
    requires AllDecode(bodies)
    requires s.counter + |bodies| <= Decimal.MaxInt64
    ensures var t := CreateAll(s, bodies);
            && Valid(t)
            && |t.rows| == |s.rows| + |bodies|
            && t.counter == s.counter + |bodies|
            && s.rows.Keys <= t.rows.Keys
            && (forall k :: k in s.rows ==> t.rows[k] == s.rows[k])
  {
    CreateAllIsInsertAll(s, bodies);
    InsertAllAddsRows(s, BodyRows(bodies));
  }

  /** N inserts add N rows, advance the counter by N and keep every earlier row. */
  lemma {:induction false} InsertAllAddsRows(s: Store, rows: seq<Row>)
    requires Valid(s)
    requires s.counter + |rows| <= Decimal.MaxInt64
    ensures var t := InsertAll(s, rows);
            && Valid(t)
            && |t.rows| == |s.rows| + |rows|
            && t.counter == s.counter + |rows|
            && s.rows.Keys <= t.rows.Keys
            && (forall k :: k in s.rows ==> t.rows[k] == s.rows[k])
    decreases |rows|
  {
    if |rows| > 0 {
      var next := Insert(s, rows[0].name, rows[0].value);
      InsertAllAddsRows(next, rows[1..]);
    }
  }

  /** The i-th of N creates stores its body's name and value under id counter + i + 1, and that row survives the rest. */
  lemma CreateAllStoresBodies(s: Store, bodies: seq<RequestBody>, i: int)
    requires Valid(s)
    requires AllDecode(bodies)
    requires s.counter + |bodies| <= Decimal.MaxInt64
    requires 0 <= i < |bodies|
    ensures var t := CreateAll(s, bodies);
            s.counter + i + 1 in t.rows && t.rows[s.counter + i + 1] == BodyRow(bodies[i])
  {
    CreateAllIsInsertAll(s, bodies);
    InsertAllStoresRows(s, BodyRows(bodies), i);
  }

  /** The i-th of N inserts puts its row under id counter + i + 1, and later inserts keep it. */
  lemma {:induction false} InsertAllStoresRows(s: Store, rows: seq<Row>, i: int)
    requires Valid(s)
    requires s.counter + |rows| <= Decimal.MaxInt64
    requires 0 <= i < |rows|
    ensures var t := InsertAll(s, rows);
            s.counter + i + 1 in t.rows && t.rows[s.counter + i + 1] == rows[i]
    decreases |rows|
  {
    var next := Insert(s, rows[0].name, rows[0].value);
    var t := InsertAll(next, rows[1..]);
    assert InsertAll(s, rows) == t;
    var id := s.counter + i + 1;
    if i == 0 {
      assert id in next.rows && next.rows[id] == rows[0];
      InsertAllKeepsRow(next, rows[1..], id);
    } else {
      assert rows[1..][i - 1] == rows[i];
      InsertAllStoresRows(next, rows[1..], i - 1);
      assert next.counter + (i - 1) + 1 == id;
    }
  }

  /** Inserting more rows leaves an existing row as it was. */
  lemma {:induction false} InsertAllKeepsRow(s: Store, rows: seq<Row>, k: int)
    requires Valid(s)
    requires s.counter + |rows| <= Decimal.MaxInt64
    requires k in s.rows
    ensures k in InsertAll(s, rows).rows && InsertAll(s, rows).rows[k] == s.rows[k]
    decreases |rows|
  {
    if |rows| > 0 {
      var next := Insert(s, rows[0].name, rows[0].value);
      InsertAllKeepsRow(next, rows[1..], k);
    }
  }

  /**
    On a fresh table, N creates followed by a list give back the bodies in
    order: the j-th listed item has id j + 1 and the j-th body's name and value.
  */
  lemma CreateAllThenList(bodies: seq<RequestBody>)
    requires 0 < |bodies| <= Decimal.MaxInt64
    requires AllDecode(bodies)
    ensures ListsAsRows(CreateAll(Empty, bodies), BodyRows(bodies))
  {
    var rows := BodyRows(bodies);
    InsertAllThenList(rows);
    CreateAllIsInsertAll(Empty, bodies);
    ListsAsRowsOfEqual(InsertAll(Empty, rows), CreateAll(Empty, bodies), rows);
  }

  /** True iff listing `t` on a healthy database gives the rows in order, the j-th under id j + 1. */
  predicate ListsAsRows(t: Store, rows: seq<Row>) {
    ListsInOrder(GetItems(t, Env(Healthy, false)).reply, rows)
  }

  /** True iff `listed` is a 200 list whose j-th item is the j-th row under id j + 1. */
  predicate ListsInOrder(listed: Reply, rows: seq<Row>) {
    && listed.code == StatusOK
    && listed.payload.ItemListPayload?
    && |listed.payload.items| == |rows|
    && forall j :: 0 <= j < |rows| ==> listed.payload.items[j] == Item(j + 1, rows[j].name, rows[j].value)
  }

  /** Equal tables list alike. */
  lemma ListsAsRowsOfEqual(t: Store, u: Store, rows: seq<Row>)
    requires ListsAsRows(t, rows) && t == u
    ensures ListsAsRows(u, rows)
  {
  }

  /** N inserts into a fresh table, then a list, give back the rows in order. */
  lemma InsertAllThenList(rows: seq<Row>)
    requires 0 < |rows| <= Decimal.MaxInt64
    ensures ListsAsRows(InsertAll(Empty, rows), rows)
  {
    var t := InsertAll(Empty, rows);
    assert Valid(t) && t.counter == |rows| && |t.rows| == |rows| by {
      InsertAllAddsRows(Empty, rows);
    }
    forall k | 1 <= k <= |rows|
      ensures k in t.rows && t.rows[k] == rows[k - 1]
    {
      InsertAllStoresRows(Empty, rows, k - 1);
      assert Empty.counter + (k - 1) + 1 == k;
    }
    assert HoldsRows(t, rows);
    ListOfHeld(t, rows);
  }

  /** True iff `t` holds exactly the rows, the k-th under id k, and no id beyond N was handed out. */
  predicate HoldsRows(t: Store, rows: seq<Row>) {
    && Valid(t)
    && t.counter == |rows|
    && |t.rows| == |rows|
    && forall k :: 1 <= k <= |rows| ==> k in t.rows && t.rows[k] == rows[k - 1]
  }

  /** A table holding exactly the rows under ids 1..N lists as those rows in order. */
  lemma ListOfHeld(t: Store, rows: seq<Row>)
    requires 0 < |rows| && HoldsRows(t, rows)
    ensures ListsAsRows(t, rows)
  {
    ScanListsTable(t);
    ListOfRows(Scan(t), t, rows);
    HealthyListIsScan(t);
  }

  /** True iff `items` are the rows of `t`, one item per row, in ascending id order. */
  predicate ListsTable(items: seq<Item>, t: Store) {
    && |items| == |t.rows|
    && (forall i :: 0 <= i < |items| ==> items[i].id in t.rows && items[i] == ItemAt(t, items[i].id))
    && (forall i, k :: 0 <= i < k < |items| ==> items[i].id < items[k].id)
  }

  /** A full scan lists the rows of the table in ascending id order. */
  lemma ScanListsTable(s: Store)
    ensures ListsTable(Scan(s), s)
  {
  }

  /** On a healthy database a non-empty table lists as its full scan. */
  lemma HealthyListIsScan(t: Store)
    requires |t.rows| > 0
    ensures GetItems(t, Env(Healthy, false)).reply == Reply(StatusOK, ItemListPayload(Scan(t)))
  {
  }

  /** The listing of a table that holds exactly the rows under ids 1..N is those rows in order. */
  lemma ListOfRows(items: seq<Item>, t: Store, rows: seq<Row>)
    requires HoldsRows(t, rows) && ListsTable(items, t)
    ensures ListsInOrder(Reply(StatusOK, ItemListPayload(items)), rows)
  {
    assert forall i :: 0 <= i < |items| ==> 1 <= items[i].id <= |rows|;
    forall j | 0 <= j < |rows|
      ensures items[j] == Item(j + 1, rows[j].name, rows[j].value)
    {
      AscendingFloor(items, j);
      AscendingCeiling(items, |rows|, j);
      assert items[j].id == j + 1 && Row(items[j].name, items[j].value) == t.rows[j + 1];
    }
  }

  /** In a strictly ascending list of positive ids, the j-th id is at least j + 1. */
  lemma {:induction false} AscendingFloor(items: seq<Item>, j: int)
    requires forall i, k :: 0 <= i < k < |items| ==> items[i].id < items[k].id
    requires forall i :: 0 <= i < |items| ==> 1 <= items[i].id
    requires 0 <= j < |items|
    ensures items[j].id >= j + 1
    decreases j
  {
    if j > 0 {
      AscendingFloor(items, j - 1);
    }
  }

  /** In a strictly ascending list of ids at most `n`, the j-th id is at most n - (|items| - 1 - j). */
  lemma {:induction false} AscendingCeiling(items: seq<Item>, n: int, j: int)
    requires forall i, k :: 0 <= i < k < |items| ==> items[i].id < items[k].id
    requires forall i :: 0 <= i < |items| ==> items[i].id <= n
    requires 0 <= j < |items|
    ensures items[j].id <= n - (|items| - 1 - j)
    decreases |items| - j
  {
    if j < |items| - 1 {
      AscendingCeiling(items, n, j + 1);
    }
  }

  /** Listing a valid, non-empty table on a healthy database gives every row once, with ids in 1..counter. */
  lemma ListValid(t: Store)
    requires Valid(t) && |t.rows| > 0
    ensures var listed := GetItems(t, Env(Healthy, false)).reply;
            && listed.code == StatusOK
            && listed.payload.ItemListPayload?
            && |listed.payload.items| == |t.rows|
            && (forall i :: 0 <= i < |listed.payload.items| ==>
                  && 1 <= listed.payload.items[i].id <= t.counter
                  && listed.payload.items[i].id in t.rows
                  && Row(listed.payload.items[i].name, listed.payload.items[i].value) == t.rows[listed.payload.items[i].id])
            && (forall id :: id in t.rows ==> Lists(listed.payload.items, id))
            && (forall i, k :: 0 <= i < k < |listed.payload.items| ==> listed.payload.items[i].id < listed.payload.items[k].id)
  {
  }

  /** Listing and getting only query and scan: a fault at another stage changes nothing. */
  lemma ReadsIgnoreWriteFaults(s: Store, id: string, st: Stage, message: string, marshalFails: bool)
    requires st in {Preparing, Executing, ReadingInsertId}
    ensures GetItems(s, Env(FailAt(st, message), marshalFails)) == GetItems(s, Env(Healthy, marshalFails))
    ensures GetItem(s, id, Env(FailAt(st, message), marshalFails)) == GetItem(s, id, Env(Healthy, marshalFails))
  {
  }

  /** Updating and deleting only prepare and execute: a fault at another stage changes nothing. */
  lemma WritesIgnoreReadFaults(s: Store, id: string, body: RequestBody, st: Stage, message: string, marshalFails: bool)
    requires st in {Querying, Scanning, ReadingInsertId}
    ensures UpdateItem(s, id, body, Env(FailAt(st, message), marshalFails)) == UpdateItem(s, id, body, Env(Healthy, marshalFails))
    ensures DeleteItem(s, id, Env(FailAt(st, message), marshalFails)) == DeleteItem(s, id, Env(Healthy, marshalFails))
  {
  }

  /** Creating never queries or scans: a fault at either stage changes nothing. */
  lemma CreateIgnoresReadFaults(s: Store, body: RequestBody, st: Stage, message: string, marshalFails: bool)
    requires st in {Querying, Scanning}
    ensures CreateItem(s, body, Env(FailAt(st, message), marshalFails)) == CreateItem(s, body, Env(Healthy, marshalFails))
  {
  }
}

=== FILE: item_store.dfy ===
/**
  The SQLite `items` table behind the item service, as an abstract value.

  The table is created with `id INTEGER PRIMARY KEY AUTOINCREMENT`, so SQLite
  keeps, besides the rows, the largest id it has ever handed out (the table's
  entry in `sqlite_sequence`) and gives every new row that number plus one:
  ids are never reused, even after the row holding the largest one is deleted.
*/
module ItemStore {
  import opened Wrappers
  import Decimal

  /** An item as the service exchanges it: the three columns of a row. */
  datatype Item = Item(id: int, name: string, value: string)

  /** The non-key columns of a row. */
  datatype Row = Row(name: string, value: string)

  /** The rows by primary key, and the AUTOINCREMENT counter. */
  datatype Store = Store(rows: map<int, Row>, counter: nat)

  /** Every id in use came from the counter, and the counter fits a 64-bit rowid. */
  predicate Valid(s: Store) {
    && s.counter <= Decimal.MaxInt64
    && forall id :: id in s.rows ==> 1 <= id <= s.counter
  }

  /** The table as `CREATE TABLE` leaves it: no rows, no id handed out yet. */
  const Empty: Store := Store(map[], 0)

  datatype InitResult = Ready(store: Store) | InitFailed(message: string)

  /**
    Opening the database file and running `CREATE TABLE IF NOT EXISTS`.
    `existing` is the table already in the file, if any; `failure` is the
    error the driver reports when opening or the statement fails.
  */
  function Initialize(existing: Option<Store>, failure: Option<string>): (r: InitResult)
    ensures failure.Some? ==> r == InitFailed(failure.value)
    ensures failure.None? && existing.Some? ==> r == Ready(existing.value)
    ensures failure.None? && existing.None? ==> r.Ready? && r.store.rows == map[] && Valid(r.store)
    ensures failure.None? && existing.None? ==> r == Ready(Empty) && NextId(r.store) == 1
  {
    match failure
    case Some(message) => InitFailed(message)
    case None => Ready(existing.GetOr(Empty))
  }

  /** Running the schema statement on an initialized table changes nothing. */
  lemma InitializeIdempotent(existing: Option<Store>)
    ensures var first := Initialize(existing, None);
            first.Ready? && Initialize(Some(first.store), None) == first
  {
  }

  /** The row with primary key `id`, as an item. */
  function ItemAt(s: Store, id: int): (item: Item)
    requires id in s.rows
    ensures item.id == id && Row(item.name, item.value) == s.rows[id]
  {
    Item(id, s.rows[id].name, s.rows[id].value)
  }

  /** `SELECT id, name, value FROM items WHERE id = ?` with an integer key. */
  function Lookup(s: Store, id: int): (r: Option<Item>)
    ensures r.Some? <==> id in s.rows
    ensures r.Some? ==> r.value.id == id && Row(r.value.name, r.value.value) == s.rows[id]
  {
    if id in s.rows then Some(ItemAt(s, id)) else None
  }

  /** The id the next INSERT receives. */
  function NextId(s: Store): int {
    s.counter + 1
  }

  /**
    `INSERT INTO items(name, value)`: a new row under the next id; the
    counter moves up to it. SQLite refuses the insert once the counter is at
    the largest rowid, which the caller checks first.
  */
  function Insert(s: Store, name: string, value: string): (r: Store)
    requires s.counter < Decimal.MaxInt64
    ensures r.counter == NextId(s)
    ensures r.rows.Keys == s.rows.Keys + {NextId(s)}
    ensures r.rows[NextId(s)] == Row(name, value)
    ensures Valid(s) ==> NextId(s) !in s.rows && Valid(r)
    ensures forall id :: id in s.rows && id != NextId(s) ==> r.rows[id] == s.rows[id]
  {
    Store(s.rows[NextId(s) := Row(name, value)], NextId(s))
  }

  /** `UPDATE items SET name = ?, value = ? WHERE id = ?`: silent when no row has `id`. */
  function Update(s: Store, id: int, name: string, value: string): (r: Store)
    ensures r.counter == s.counter && r.rows.Keys == s.rows.Keys
    ensures id in s.rows ==> r.rows[id] == Row(name, value)
    ensures id !in s.rows ==> r == s
    ensures forall k :: k in s.rows && k != id ==> r.rows[k] == s.rows[k]
    ensures Valid(s) ==> Valid(r)
  {
    if id in s.rows then Store(s.rows[id := Row(name, value)], s.counter) else s
  }

  /** True iff some item of `items` has id `id`. */
  predicate Lists(items: seq<Item>, id: int) {
    exists i :: 0 <= i < |items| && items[i].id == id
  }

  /** `DELETE FROM items WHERE id = ?`: silent when no row has `id`; the counter stays. */
  function Delete(s: Store, id: int): (r: Store)
    ensures r.counter == s.counter
    ensures r.rows.Keys == s.rows.Keys - {id}
    ensures forall k :: k in r.rows ==> r.rows[k] == s.rows[k]
    ensures Valid(s) ==> Valid(r)
  {
    Store(s.rows - {id}, s.counter)
  }

  /** True iff `m` is the least id in `ids`. */
  predicate IsLeast(m: int, ids: set<int>) {
    m in ids && forall k :: k in ids ==> m <= k
  }

  /** A non-empty set has a member. */
  lemma HasMember(ids: set<int>)
    requires ids != {}
    ensures exists k :: k in ids
  {
    if forall k :: k !in ids {
      assert false;
    }
  }

  /** Every non-empty set of ids has a least element. */
  lemma {:induction false} LeastExists(ids: set<int>)
    requires ids != {}
    ensures exists m :: IsLeast(m, ids)
    decreases |ids|
  {
    HasMember(ids);
    var k :| k in ids;
    if ids == {k} {
      assert IsLeast(k, ids);
    } else {
      LeastExists(ids - {k});
      var m :| IsLeast(m, ids - {k});
      forall j | j in ids && j != k
        ensures m <= j
      {
        assert j in ids - {k};
      }
      if k < m {
        assert IsLeast(k, ids);
      } else {
        assert IsLeast(m, ids);
      }
    }
  }

  /** The ids in ascending order, each exactly once. */
  function SortedIds(ids: set<int>): (r: seq<int>)
    ensures |r| == |ids|
    ensures forall i :: 0 <= i < |r| ==> r[i] in ids
    ensures forall k :: k in ids ==> k in r
    ensures forall i, j :: 0 <= i < j < |r| ==> r[i] < r[j]
    decreases |ids|
  {
    if ids == {} then []
    else
      LeastExists(ids);
      var m :| IsLeast(m, ids);
      var rest := SortedIds(ids - {m});
      forall k | k in ids && k != m
        ensures k in rest
      {
        assert k in ids - {m};
      }
      [m] + rest
  }

  /**
    `SELECT id, name, value FROM items`, in the order a full scan of a rowid
    table produces: ascending id.
  */
  function Scan(s: Store): (items: seq<Item>)
    ensures |items| == |s.rows|
    ensures forall i :: 0 <= i < |items| ==> items[i].id in s.rows && items[i] == ItemAt(s, items[i].id)
    ensures forall id :: id in s.rows ==> Lists(items, id)
    ensures forall i, j :: 0 <= i < j < |items| ==> items[i].id < items[j].id
  {
    var ids := SortedIds(s.rows.Keys);
    var items := ItemsAt(s, ids);
    assert forall id :: id in s.rows ==> id in ids;
    items
  }

  /** The rows with the given ids, in the given order. */
  function ItemsAt(s: Store, ids: seq<int>): (items: seq<Item>)
    requires forall i :: 0 <= i < |ids| ==> ids[i] in s.rows
    ensures |items| == |ids|
    ensures forall i :: 0 <= i < |items| ==> items[i] == ItemAt(s, ids[i])
    ensures forall id :: id in ids ==> Lists(items, id)
  {
    var items := seq(|ids|, i requires 0 <= i < |ids| => ItemAt(s, ids[i]));
    assert forall i :: 0 <= i < |items| ==> items[i].id == ids[i];
    items
  }
}

=== FILE: todo.dfy ===
/**
  The interactive todo list: a sequence of tasks the menu loop appends to,
  lists, and marks complete. Reading stdin and printing the menu are left to
  the caller; each menu round takes the parsed choice and the title or id
  the round would read, and yields the messages it prints.
*/
module Todo {
  import opened Wrappers
  import Decimal

  datatype Task = Task(id: int, title: string, complete: bool)

  /** Tasks are numbered 1, 2, 3, ... in list order. */
  predicate WellNumbered(tasks: seq<Task>) {
    forall k :: 0 <= k < |tasks| ==> tasks[k].id == k + 1
  }

  /** Option 1: a new, open task numbered one past the current length. */
  function Add(tasks: seq<Task>, title: string): (r: seq<Task>)
    ensures |r| == |tasks| + 1
    ensures r[..|tasks|] == tasks
    ensures r[|tasks|] == Task(|tasks| + 1, title, false)
    ensures WellNumbered(tasks) ==> WellNumbered(r)
  {
    tasks + [Task(|tasks| + 1, title, false)]
  }

  /** The position of the first task numbered `id`, if any. */
  function FirstWithId(tasks: seq<Task>, id: int): (r: Option<nat>)
    ensures r.Some? ==> r.value < |tasks| && tasks[r.value].id == id
    ensures r.Some? ==> forall k :: 0 <= k < r.value ==> tasks[k].id != id
    ensures r.None? ==> forall k :: 0 <= k < |tasks| ==> tasks[k].id != id
    decreases |tasks|
  {
    if |tasks| == 0 then None
    else if tasks[0].id == id then Some(0)
    else match FirstWithId(tasks[1..], id)
      case None => None
      case Some(k) => Some(k + 1)
  }

  /** The list after marking the task numbered `id`: the first such task is complete, nothing else changes. */
  function Marked(tasks: seq<Task>, id: int): (r: seq<Task>)
    ensures |r| == |tasks|
    ensures forall k :: 0 <= k < |r| ==> r[k].id == tasks[k].id && r[k].title == tasks[k].title
    ensures forall k :: 0 <= k < |r| && tasks[k].complete ==> r[k].complete
    ensures FirstWithId(tasks, id).None? ==> r == tasks
    ensures FirstWithId(tasks, id).Some? ==>
              && r[FirstWithId(tasks, id).value].complete
              && forall k :: 0 <= k < |r| && k != FirstWithId(tasks, id).value ==> r[k] == tasks[k]
  {
    match FirstWithId(tasks, id)
    case None => tasks
    case Some(i) => tasks[i := tasks[i].(complete := true)]
  }

  /**
    Option 3, as the source's loop does it: walk the list, mark the first
    task numbered `id` and stop; report whether one was found.
  */
  method MarkComplete(tasks: seq<Task>, id: int) returns (r: seq<Task>, found: bool)
    ensures found <==> exists k :: 0 <= k < |tasks| && tasks[k].id == id
    ensures r == Marked(tasks, id)
  {
    r := tasks;
    found := false;
    var i := 0;
    while i < |r|
      invariant 0 <= i <= |r|
      invariant r == tasks
      invariant forall k :: 0 <= k < i ==> tasks[k].id != id
    {
      if r[i].id == id {
        r := r[i := r[i].(complete := true)];
        found := true;
        assert FirstWithId(tasks, id) == Some(i);
        return;
      }
      i := i + 1;
    }
  }

  /** Marking the same task twice is the same as marking it once. */
  lemma MarkedIdempotent(tasks: seq<Task>, id: int)
    ensures Marked(Marked(tasks, id), id) == Marked(tasks, id)
  {
    var once := Marked(tasks, id);
    match FirstWithId(tasks, id)
    case None =>
    case Some(i) =>
      assert FirstWithId(once, id) == Some(i);
  }

  /** In a well-numbered list, id `n` is found exactly when 1 <= n <= |tasks|, at position n - 1. */
  lemma MarkedWellNumbered(tasks: seq<Task>, id: int)
    requires WellNumbered(tasks)
    ensures FirstWithId(tasks, id).Some? <==> 1 <= id <= |tasks|
    ensures FirstWithId(tasks, id).Some? ==> FirstWithId(tasks, id).value == id - 1
    ensures WellNumbered(Marked(tasks, id))
  {
    if 1 <= id <= |tasks| {
      assert tasks[id - 1].id == id;
    }
  }

  /** The mark shown between the brackets. */
  function StatusMark(complete: bool): char {
    if complete then '\U{2713}' else ' '
  }

  /**
    One line of option 2, `[%s] %d. %s`: the status mark in brackets, the
    number, a dot and a space, and the title.
  */
  function RenderLine(task: Task): (r: string)
    ensures |r| >= 7 + |task.title|
    ensures r[..4] == ['[', StatusMark(task.complete), ']', ' ']
    ensures r[|r| - |task.title| - 2..] == ". " + task.title
    ensures Decimal.Canonical(r[4..|r| - |task.title| - 2])
    ensures Decimal.ParseInteger(r[4..|r| - |task.title| - 2]) == Some(task.id)
  {
    var prefix := ['[', StatusMark(task.complete), ']', ' '];
    var number := Decimal.IntToDecimal(task.id);
    var suffix := ". " + task.title;
    var r := prefix + number + suffix;
    assert |r| - |task.title| - 2 == |prefix + number|;
    assert (prefix + number)[..4] == prefix;
    assert r[..|prefix + number|] == prefix + number;
    assert r[|prefix + number|..] == suffix;
    assert (prefix + number)[4..] == number;
    r
  }

  const NoTasks := "No tasks found!"
  const Heading := "\nYour Tasks:"

  /** Option 2: what the listing prints, one element per print call. */
  function Render(tasks: seq<Task>): (r: seq<string>)
    ensures |tasks| == 0 ==> r == [NoTasks]
    ensures |tasks| > 0 ==>
              && |r| == |tasks| + 1
              && r[0] == Heading
              && forall k :: 0 <= k < |tasks| ==> r[k + 1] == RenderLine(tasks[k])
  {
    if |tasks| == 0 then [NoTasks]
    else [Heading] + Lines(tasks)
  }

  /** The rendered lines of the tasks, in list order. */
  function Lines(tasks: seq<Task>): (r: seq<string>)
    ensures |r| == |tasks|
    ensures forall k :: 0 <= k < |tasks| ==> r[k] == RenderLine(tasks[k])
  {
    seq(|tasks|, k requires 0 <= k < |tasks| => RenderLine(tasks[k]))
  }

  /** What one round of the menu reads: the choice, then a title (option 1) or an id (option 3). */
  datatype MenuInput = MenuInput(choice: int, title: string, id: int)

  /** The list after a round, what the round prints, and whether the loop ends. */
  datatype Round = Round(tasks: seq<Task>, output: seq<string>, exit: bool)

  /** One round of the menu loop. */
  function Step(tasks: seq<Task>, input: MenuInput): (r: Round)
    ensures r.exit <==> input.choice == 4
    ensures input.choice == 1 ==> r.tasks == Add(tasks, input.title) && r.output == ["Task added successfully!"]
    ensures input.choice == 3 ==> r.tasks == Marked(tasks, input.id)
    ensures input.choice == 3 ==>
              r.output == [if FirstWithId(tasks, input.id).Some? then "Task marked as complete!" else "Task not found!"]
    ensures input.choice == 2 ==> r.output == Render(tasks)
    ensures input.choice !in {1, 3} ==> r.tasks == tasks
    ensures input.choice == 4 ==> r.output == ["Goodbye!"]
    ensures input.choice !in {1, 2, 3, 4} ==> r.output == ["Invalid option! Please try again."]
  {
    match input.choice
    case 1 => Round(Add(tasks, input.title), ["Task added successfully!"], false)
    case 2 => Round(tasks, Render(tasks), false)
    case 3 =>
      var message := if FirstWithId(tasks, input.id).Some? then "Task marked as complete!" else "Task not found!";
      Round(Marked(tasks, input.id), [message], false)
    case 4 => Round(tasks, ["Goodbye!"], true)
    case _ => Round(tasks, ["Invalid option! Please try again."], false)
  }

  /** True iff `after` extends `before`, keeps every id and title, and reopens no task. */
  predicate Grows(before: seq<Task>, after: seq<Task>) {
    && |before| <= |after|
    && forall k :: 0 <= k < |before| ==>
         && after[k].id == before[k].id
         && after[k].title == before[k].title
         && (before[k].complete ==> after[k].complete)
  }

  /** The menu loop over a script of inputs; it stops at option 4 or when the script runs out. */
  function Run(tasks: seq<Task>, inputs: seq<MenuInput>): (r: Round)
    ensures r.exit <==> exists k :: 0 <= k < |inputs| && inputs[k].choice == 4
    ensures |inputs| > 0 && inputs[0].choice == 4 ==> r == Round(tasks, ["Goodbye!"], true)
    decreases |inputs|
  {
    if |inputs| == 0 then Round(tasks, [], false)
    else
      var round := Step(tasks, inputs[0]);
      if round.exit then round
      else
        var rest := Run(round.tasks, inputs[1..]);
        Round(rest.tasks, round.output + rest.output, rest.exit)
  }

  /** Every round keeps the numbering and only grows the list or closes tasks. */
  lemma StepPreserves(tasks: seq<Task>, input: MenuInput)
    requires WellNumbered(tasks)
    ensures WellNumbered(Step(tasks, input).tasks)
    ensures Grows(tasks, Step(tasks, input).tasks)
  {
    if input.choice == 3 {
      MarkedWellNumbered(tasks, input.id);
    }
  }

  /** Any script of rounds keeps tasks numbered 1..n, and no task is ever reopened. */
  lemma {:induction false} RunPreserves(tasks: seq<Task>, inputs: seq<MenuInput>)
    requires WellNumbered(tasks)
    ensures WellNumbered(Run(tasks, inputs).tasks)
    ensures Grows(tasks, Run(tasks, inputs).tasks)
    decreases |inputs|
  {
    if |inputs| > 0 {
      var round := Step(tasks, inputs[0]);
      StepPreserves(tasks, inputs[0]);
      if !round.exit {
        RunPreserves(round.tasks, inputs[1..]);
      }
    }
  }

  /** Every id in a well-numbered list belongs to one task only. */
  lemma WellNumberedUniqueIds(tasks: seq<Task>, i: int, j: int)
    requires WellNumbered(tasks)
    requires 0 <= i < |tasks| && 0 <= j < |tasks| && i != j
    ensures tasks[i].id != tasks[j].id
  {
  }
}

=== FILE: wrappers.dfy ===
/** Small failure-carrying datatypes shared by the other modules. */
module Wrappers {

  /** A value that may be absent. */
  datatype Option<+T> = None | Some(value: T) {

    /** The held value; `fallback` stands in for a missing one. */
    function GetOr(fallback: T): T {
      if Some? then value else fallback
    }
  }

  /** The outcome of an operation that either passes or fails with an error. */
  datatype Outcome<+E> = Pass | Fail(error: E)
}
